=== FILE: README.md ===
# CardManager card bookkeeping, modelled in Dafny

CardManager keeps a collection of trading cards. Each card carries a quantity and an
optional user category, and is priced with data scraped from the TCGplayer marketplace.
This project models the bookkeeping part of the application:

- the `Card` record and its derived values (price, total value, category display);
- the JSON repository. The collection file is reduced to the states that decide what a load
  returns: missing, blank, the `null` document, unreadable, or a list of cards. On top of that
  sit the list operations every store call performs (load, save, upsert by `Id`, remove by `Id`);
- the card service. Each operation is a pure function from the old store and the scraper's
  answers to the new store and the value handed back. The scraper is an oracle:
  `Scraper.Scrape(id, fetched)` places a listing of provider-owned fields into a freshly
  constructed card. `None` stands for the scrape returning `null`, which the service handles;
  the scraper itself does not return it on a network failure (see below);
- the pure helpers of the main window: the search and category filter, the collection total,
  the card-count label, the sort-direction toggle with its sort keys, and the window's local
  upsert after an add.

Modules follow the source files:

- `Cards` models `Models/Card.cs`.
- `Store` models `Services/JsonCardRepository.cs`.
- `Scraper` is the oracle view of `Services/TCGPlayerScraper.cs`.
- `Service` models `Services/CardService.cs`.
- `Window` models `MainWindow.xaml.cs`.
- `Options`, `Seqs` and `Text` are helpers: nullable values, order-preserving filters, and the
  .NET string operations used (`Trim`, ordinal `Contains`, `int.ToString()`, an ordinal string order).

Representation choices:

- `decimal` is `real`, and `DateTime` is an integer tick count (0 is `DateTime.MinValue`).
- The culture-sensitive `ToLower` is a function parameter of the filter.
- The culture-sensitive `OrderBy` on strings is replaced by ordinal order (`Text.Less`).

Behaviours of the code worth noting, modelled as written. The code's own comments promise
to preserve the category on a refresh (`CardService.cs:49`, `:69`), and it does. Nothing
preserves the quantity, and the window calls service operations the service does not have:

- A refresh does not preserve the quantity. `RefreshCardAsync` and `RefreshAllCardsAsync`
  keep the scraped card, whose `Amount` is the default 1 (`Service.RefreshResetsAmount`,
  `Service.RefreshEntry`).
- `CardService.cs` has no quantity-setting operation and no `amount` argument to `AddCardAsync`,
  although the window calls both (`MainWindow.xaml.cs:200`, `:380`). `AddCardAsync(id, category)` is
  modelled as written, and the quantity of an added card is the scraped default 1.
- The scraper does not guarantee a non-empty name: an empty `productName` gives `""`. The model
  makes no assumption about the name.
- `RefreshCardAsync` re-applies the stored category only when it is non-empty. Since a scraped card is
  uncategorised, the result is the same as always copying it (`Service.RefreshCard` states this).
  `RefreshAllCardsAsync` copies it unconditionally (`Service.RefreshEntry`).
- A network failure does not keep the old data. Both fetch helpers of the scraper catch every
  exception (`TCGPlayerScraper.cs:92-99`, `:146-149`). So `ScrapeCardAsync` does not return
  `null`: it returns a card named `Card #<id>` with no price (`Scraper.FailedListing`). A refresh
  then overwrites the stored entry with that placeholder
  (`Service.TransportFailureOverwritesEntry`, `Service.TransportFailureOverwritesStoredCard`). The
  keep-old-data branch of `RefreshAllCardsAsync` and the `null` checks of the service are
  unreachable in practice. They are still modelled, for a `None` answer.
- `CategoryDisplay` shows the dash for an empty category, and also for a category that is itself
  the dash (`Cards.CategoryDisplayIsDash`).

## Model

| member | source | states |
|---|---|---|
| Cards.Price | CardManager/Models/Card.cs:26 | present exactly when a market or lowest price is present; the market price wins, otherwise the lowest price |
| Cards.TotalValue | CardManager/Models/Card.cs:30 | present exactly when the price is; then it is price times quantity |
| Cards.CategoryDisplay | CardManager/Models/Card.cs:18 | the dash for an empty category, the category itself otherwise; never empty |
| Cards.CategoryDisplayIsDash | CardManager/Models/Card.cs:18 | the dash appears exactly for an empty category or a category that is literally the dash |
| Cards.NewCard | CardManager/Models/Card.cs:7-15 | a new card has empty name and category, quantity 1, and no prices or sale date |
| Cards.TotalValueExample | CardManager/Models/Card.cs:26-30 | market price 10 with quantity 3 gives price 10 and total 30 |
| Cards.PricelessCard | CardManager/Models/Card.cs:26-30 | with neither market nor lowest price, both price and total are absent |
| Cards.MarketPriceWins | CardManager/Models/Card.cs:26-30 | with both prices present, the market price is used for price and total |
| Store.Load | CardManager/Services/JsonCardRepository.cs:26-47 | a missing, blank, null or unreadable file loads as the empty list; a list of cards loads as itself |
| Store.Save | CardManager/Services/JsonCardRepository.cs:49-53 | after a save, loading gives exactly the saved list |
| Store.SaveLoadRoundTrip | CardManager/Services/JsonCardRepository.cs:26-53 | save followed by load is the identity on card lists |
| Store.FindIndex | CardManager/Services/JsonCardRepository.cs:58 | -1 exactly when no entry holds the id; otherwise the first position holding it |
| Store.Find | CardManager/Services/CardService.cs:43 | present exactly when some entry holds the id, and then it is the first such entry |
| Store.ReplaceOrAppend | CardManager/Services/JsonCardRepository.cs:58-67 | replaces the first entry with the id in place, or appends; every other position is unchanged |
| Store.Upsert | CardManager/Services/JsonCardRepository.cs:55-70 | the card ends up in the list; the length grows by at most one |
| Store.UpsertExisting | CardManager/Services/JsonCardRepository.cs:58-63 | an upsert of a stored id replaces exactly the first entry with that id |
| Store.UpsertNew | CardManager/Services/JsonCardRepository.cs:64-67 | an upsert of a new id appends the card after all prior entries |
| Store.UpsertKeepsIdsUnique | CardManager/Services/JsonCardRepository.cs:55-70 | unique ids stay unique, and the card's id is then held by that card alone |
| Store.UpsertOverridesUpsert | CardManager/Services/JsonCardRepository.cs:55-70 | two upserts under one id equal the second upsert alone |
| Store.RemoveAll | CardManager/Services/JsonCardRepository.cs:75 | no entry with the id remains; every copy of every other entry is kept, in order; an absent id changes nothing |
| Store.RemoveAllLength | CardManager/Services/JsonCardRepository.cs:75 | the list shrinks by exactly the number of entries holding the id |
| Store.RemoveAllKeepsIdsUnique | CardManager/Services/JsonCardRepository.cs:72-77 | removing entries keeps unique ids unique |
| Store.AddOrUpdate | CardManager/Services/JsonCardRepository.cs:55-70 | the file afterwards holds the upsert of the loaded list |
| Store.Delete | CardManager/Services/JsonCardRepository.cs:72-77 | the file afterwards holds the loaded list with the id removed |
| Store.DeleteAbsentKeepsContents | CardManager/Services/JsonCardRepository.cs:72-77 | deleting an id that is not stored leaves the stored list unchanged |
| Store.UpsertOnUnreadableFile | CardManager/Services/JsonCardRepository.cs:55-70 | an upsert on a file that does not load as a list leaves only the new card |
| Scraper.Scrape | CardManager/Services/TCGPlayerScraper.cs:26-56 | a card exactly when the scrape does not return `null`: it has the requested id, empty category, quantity 1 and the observed fields |
| Service.AddCard | CardManager/Services/CardService.cs:25-37 | a failed fetch returns nothing and leaves the store alone; a successful one takes a non-empty category argument (else stays uncategorised) and is upserted |
| Service.RefreshCard | CardManager/Services/CardService.cs:39-57 | a failed fetch changes nothing; on success the card keeps the first stored card's category, has quantity 1, and is upserted, or appended for a new id |
| Service.RefreshEntry | CardManager/Services/CardService.cs:66-77 | keeps the id; a `null` scrape keeps the old card; a returned card has the old category (even empty), quantity 1 and the fetched fields |
| Service.RefreshAll | CardManager/Services/CardService.cs:59-84 | one merged entry per stored card, in order; `null` scrapes keep the old entry; progress is (1,n)..(n,n); the merged list is saved once |
| Scraper.FailedListing | CardManager/Services/TCGPlayerScraper.cs:92-99 | the listing of a scrape whose endpoints both fail: no price, sale price or sale date, and the name `Card #` followed by the id as `int.ToString()` writes it |
| Service.TransportFailureOverwritesEntry | CardManager/Services/TCGPlayerScraper.cs:92-99 | a bulk refresh during a network failure replaces the entry with `Card #<id>` without prices, keeping only id and category |
| Service.TransportFailureOverwritesStoredCard | CardManager/Services/CardService.cs:39-57 | a single refresh during a network failure stores and returns a priceless `Card #<id>` |
| Service.UpdateCardCategory | CardManager/Services/CardService.cs:86-95 | only the first card with the id changes, and only its category; an absent id saves nothing |
| Service.DeleteCard | CardManager/Services/CardService.cs:108-111 | no card with the id remains; every copy of every other card is kept, in order; the list shrinks by the number of entries with the id; an absent id changes nothing |
| Service.CategoriesOf | CardManager/Services/CardService.cs:100-102 | exactly the non-empty categories that some card carries |
| Service.InsertUnique | CardManager/Services/CardService.cs:103-104 | inserting into an ascending duplicate-free list keeps it so and adds exactly the element |
| Service.SortedDistinct | CardManager/Services/CardService.cs:103-105 | strictly ascending, with exactly the elements of the input |
| Service.GetAllCategories | CardManager/Services/CardService.cs:97-106 | strictly ascending, no empty category, exactly the non-empty stored categories |
| Service.SortedHasNoDuplicates | CardManager/Services/CardService.cs:103 | a strictly ascending list has no repeated category |
| Service.SortedUnique | CardManager/Services/CardService.cs:103-105 | two strictly ascending lists with the same elements are equal |
| Service.CategoriesDependOnlyOnTheirSet | CardManager/Services/CardService.cs:97-106 | stores carrying the same categories list the same categories |
| Service.CategoryListingExample | CardManager/Services/CardService.cs:97-106 | categories "", "Fire", "Fire", "Water" list as ["Fire", "Water"] |
| Service.AddTwiceKeepsOneEntry | CardManager/Services/CardService.cs:25-37 | adding one id twice leaves a single entry for it, holding the second fetch |
| Service.CategorySurvivesRefresh | CardManager/Services/CardService.cs:39-57 | a category set on a stored card is kept by a later successful refresh |
| Service.RefreshResetsAmount | CardManager/Services/CardService.cs:46-54 | after a successful refresh the stored entry for the id has quantity 1 |
| Service.AddCardKeepsIdsUnique | CardManager/Services/CardService.cs:25-37 | adding a card keeps stored ids unique |
| Service.RefreshCardKeepsIdsUnique | CardManager/Services/CardService.cs:39-57 | refreshing a card keeps stored ids unique |
| Service.UpdateCategoryKeepsIdsUnique | CardManager/Services/CardService.cs:86-95 | changing a category keeps stored ids unique |
| Service.DeleteCardKeepsIdsUnique | CardManager/Services/CardService.cs:108-111 | deleting a card keeps stored ids unique |
| Seqs.Filter | CardManager/MainWindow.xaml.cs:133 | keeps, in order, every copy of each element that satisfies the predicate and nothing else |
| Text.Trim | CardManager/MainWindow.xaml.cs:126 | a contiguous part of the input with only white space cut off at both ends, and no white space left at either end |
| Text.TrimKeepsInnerText | CardManager/MainWindow.xaml.cs:126 | a string with no white space at either end trims to itself |
| Text.IntToString | CardManager/MainWindow.xaml.cs:141 | a minus sign exactly for a negative number, then the decimal digits of the number's magnitude, without leading zeros |
| Text.ContainsAt | CardManager/MainWindow.xaml.cs:140-142 | the recursive `Contains` holds exactly when the needle occurs at some position |
| Window.SearchText | CardManager/MainWindow.xaml.cs:126 | no search box gives the empty search; otherwise no longer than the box's text, and empty exactly when that text is all white space (for a length-preserving lower-casing) |
| Window.MatchesSearch | CardManager/MainWindow.xaml.cs:139-143 | the search text occurs at some position of the lower-cased name, the decimal id or the lower-cased category |
| Window.ApplyFilter | CardManager/MainWindow.xaml.cs:124-147 | an order-preserving subsequence holding every copy of each card that passes the category and search filters and no other card; no filter returns the input |
| Window.BlankSearchKeepsEverything | CardManager/MainWindow.xaml.cs:126-146 | a white-space-only search with no category filters nothing out |
| Window.SearchById | CardManager/MainWindow.xaml.cs:126-143 | searching for a card's decimal id finds that card, for any lower-casing that leaves digits and the minus sign alone |
| Window.CollectionTotal | CardManager/MainWindow.xaml.cs:115-119 | the total is 0 when no card has a total value |
| Window.PricelessCardsCountZero | CardManager/MainWindow.xaml.cs:117-119 | the total equals the sum over all cards with priceless cards counted as 0 |
| Window.TotalOfConcatenation | CardManager/MainWindow.xaml.cs:117-119 | the total of two collections together is the sum of their totals |
| Window.TotalNonNegative | CardManager/MainWindow.xaml.cs:117-119 | non-negative prices and quantities give a non-negative total |
| Window.CountLabel | CardManager/MainWindow.xaml.cs:149-152 | "1 card" for one card, the decimal count followed by " cards" otherwise |
| Window.CountLabelInjective | CardManager/MainWindow.xaml.cs:151 | different counts give different labels |
| Window.NextDirection | CardManager/MainWindow.xaml.cs:465-477 | same column: ascending becomes descending and back; any other case is ascending |
| Window.Click | CardManager/MainWindow.xaml.cs:479-481 | after a click the clicked column and a direction are remembered |
| Window.ClickTwiceRestores | CardManager/MainWindow.xaml.cs:465-481 | two clicks on the sorted column restore its sort state |
| Window.ClicksAlternate | CardManager/MainWindow.xaml.cs:465-481 | repeated clicks on a newly chosen column alternate ascending, descending, ... |
| Window.MoneyKey | CardManager/MainWindow.xaml.cs:501-509 | a present value is its own key; a missing one is at least every decimal ascending and at most every decimal descending |
| Window.EffectiveDirection | CardManager/MainWindow.xaml.cs:487-517 | the unknown column is always ascending; every named column uses the clicked direction |
| Window.KeyOf | CardManager/MainWindow.xaml.cs:487-517 | each column keys by its own field: id, name, category, quantity, last update; a present money value keys by itself; the sale date, or `DateTime.MinValue` when missing; the unknown column by id |
| Window.RowBefore | CardManager/MainWindow.xaml.cs:487-517 | one row is placed strictly before another only when their keys differ, so rows with equal keys keep their filtered order |
| Window.MissingMoneySortsLast | CardManager/MainWindow.xaml.cs:501-509 | in the market price, total value and last sale price columns a missing value never sorts before a present one, in either direction |
| Window.OtherColumnSortsByIdAscending | CardManager/MainWindow.xaml.cs:516 | a column with an unknown sort member orders rows by ascending id in both directions |
| Window.NamedColumnsSortByTheirField | CardManager/MainWindow.xaml.cs:488-515 | ascending, each named column places a row first exactly when its own field is smaller: ordinal for name and category, by value for id, quantity, last update, and two present prices or sale dates |
| Window.KnownColumnHonoursDirection | CardManager/MainWindow.xaml.cs:488-515 | for every known column, descending order is ascending order reversed (for money columns, between rows that both hold a value) |
| Window.MissingSaleDateSortsEarliest | CardManager/MainWindow.xaml.cs:510-512 | a missing sale date takes the earliest date: it sorts first ascending and last descending |
| Window.LocalUpsert | CardManager/MainWindow.xaml.cs:204-213 | replaces the first entry with the requested id in place, or appends the card |
| Window.LocalListTracksStore | CardManager/MainWindow.xaml.cs:200-213 | after a successful add, the window's list equals the stored list if it did before |

## Left out

- File I/O and JSON: the serialisation format and case-insensitive property matching are not modelled. The file is one of five abstract states.
- `null` in the JSON is not modelled beyond the `null` document. A `null` list element makes every
  lambda that reads `c.Id` or `c.Category` throw (`JsonCardRepository.cs:58`, `:75`; `CardService.cs:43`,
  `:89`, `:101`), as well as `RefreshAllCardsAsync`. A `null` string field such as `"category": null` is
  not admitted either: the model's card has non-null strings.
- Write failures of `SaveCardsAsync` are not modelled; every save succeeds.
- `GetAllCardsAsync` is the load itself (`Store.Load`) and has no separate member.
- The scraper's HTTP calls, JSON field extraction, date parsing and conversion to local time, and exception handling are not modelled: they are library behaviour. Only the shape of their result is used.
- Async execution and `IProgress` are not modelled. Progress reports are returned as a list of `(current, total)` pairs.
- Culture-sensitive `ToLower` is a parameter of the filter, and culture-sensitive string ordering in `OrderBy` is replaced by ordinal order. `Text.Less` compares Unicode scalar values, not UTF-16 code units.
- The LINQ sort itself (a stable `OrderBy`) is not modelled. The toggle, the key of each column and the order
  between two rows (`Window.RowBefore`, with the unknown column always ascending) are modelled. Ordering of names and categories in the grid would be culture-sensitive.
- Cards.TotalValue: does not model the `OverflowException` of `decimal` multiplication, nor decimal precision, because `decimal` is modelled as `real`.
- Window.CollectionTotal: does not model the `OverflowException` of the `decimal` `Sum` in `UpdateTotalPrice` (`MainWindow.xaml.cs:117-119`), for the same reason.
- Window.MissingMoneySortsLast: requires the present value to fit in a `decimal`, since `real` has no bound.
- Text.IntToString: writes the minus sign as '-', whereas `int.ToString()` (used by the search at `MainWindow.xaml.cs:141` and by the `Card #<id>` placeholder) writes the current culture's `NegativeSign`, which can be U+2212. Negative ids do occur, since `int.TryParse` at `MainWindow.xaml.cs:170` accepts them.
- Display formatting is not modelled: the money and date display strings and the status messages.
- The rest of the window is not modelled: controls, message boxes, dropdown rebuilding, the dark title bar call, opening the browser, the category and quantity edit handlers, and the local replacement after a single-card refresh.
- `InputDialog.xaml.cs` is not part of this model: it only trims the entered text.

=== FILE: cards.dfy ===
/** The `Card` record of the card manager: one tracked marketplace product plus the
    user's own annotations (category and quantity), and the values derived from it. */
module Cards {
  import opened Options

  /** A `decimal` amount of money. Decimal precision and overflow are not modelled. */
  type Money = real

  /** A `DateTime`, kept opaque as a tick count (0 is `DateTime.MinValue`). */
  type Instant = int

  /** Shown by the category column for an uncategorised card (U+2014 EM DASH). */
  const NoCategoryMark: string := "\U{2014}"

  datatype Card = Card(
    id: int,
    name: string,
    category: string,
    marketPrice: Option<Money>,
    lowestPrice: Option<Money>,
    latestSalePrice: Option<Money>,
    latestSaleDate: Option<Instant>,
    lastUpdated: Instant,
    amount: int)

  /** The price used for valuation: the market price, falling back to the lowest listed price. */
  function Price(c: Card): (p: Option<Money>)
    ensures p.Some? <==> c.marketPrice.Some? || c.lowestPrice.Some?
    ensures c.marketPrice.Some? ==> p == c.marketPrice
    ensures c.marketPrice.None? ==> p == c.lowestPrice
  {
    if c.marketPrice.Some? then c.marketPrice else c.lowestPrice
  }

  /** The value of the whole holding: price times quantity, absent when there is no price. */
  function TotalValue(c: Card): (v: Option<Money>)
    ensures v.Some? <==> Price(c).Some?
    ensures v.Some? ==> v.value == Price(c).value * c.amount as real
  {
    match Price(c)
    case Some(p) => Some(p * c.amount as real)
    case None => None
  }

  /** The category as the grid shows it: a dash for an uncategorised card. */
  function CategoryDisplay(c: Card): (s: string)
    ensures c.category == "" ==> s == NoCategoryMark
    ensures c.category != "" ==> s == c.category
    ensures |s| > 0
  {
    if c.category == "" then NoCategoryMark else c.category
  }

  /** A freshly constructed card (`new Card { Id = id, LastUpdated = now }`):
      every other property keeps its declared default. */
  function NewCard(id: int, now: Instant): (c: Card)
    ensures c.id == id && c.lastUpdated == now
    ensures c.name == "" && c.category == "" && c.amount == 1
    ensures c.marketPrice.None? && c.lowestPrice.None?
    ensures c.latestSalePrice.None? && c.latestSaleDate.None?
  {
    Card(id, "", "", None, None, None, None, now, 1)
  }

  /** The dash is shown exactly for an empty category, or for a category that is itself the dash. */
  lemma CategoryDisplayIsDash(c: Card)
    ensures CategoryDisplay(c) == NoCategoryMark <==> c.category == "" || c.category == NoCategoryMark
  {}

  /** A card with market price 10 and quantity 3 is priced 10 and worth 30. */
  lemma TotalValueExample(now: Instant)
    ensures var c := NewCard(7, now).(marketPrice := Some(10.0), amount := 3);
            Price(c) == Some(10.0) && TotalValue(c) == Some(30.0)
  {}

  /** A card with neither a market price nor a lowest price has no price and no total value. */
  lemma PricelessCard(c: Card)
    requires c.marketPrice.None? && c.lowestPrice.None?
    ensures Price(c).None? && TotalValue(c).None?
  {}

  /** The market price wins over the lowest price whenever both are present. */
  lemma MarketPriceWins(c: Card, m: Money, l: Money)
    requires c.marketPrice == Some(m) && c.lowestPrice == Some(l)
    ensures Price(c) == Some(m)
    ensures TotalValue(c) == Some(m * c.amount as real)
  {
    assert Price(c).value == m;
    assert TotalValue(c).Some?;
    assert TotalValue(c).value == m * c.amount as real;
  }
}

=== FILE: options.dfy ===
/** The nullable values of the card manager (`decimal?`, `DateTime?`, `Card?`, `string?`)
    are modelled with this Some/None datatype. */
module Options {

  datatype Option<+T> = None | Some(value: T) {

    /** The C# `??` operator: the value when present, otherwise `default`. */
    function GetOr(default: T): T {
      match this
      case Some(v) => v
      case None => default
    }
  }
}

=== FILE: scraper.dfy ===
/** The marketplace scraper, seen only through what it hands back. The HTTP requests and
    the JSON field extraction are not modelled: a scrape yields the provider-owned fields it
    observed, which are poured into a freshly constructed card.

    `ScrapeCardAsync` returns `null` only when one of its own statements throws. Both fetch
    helpers catch every exception themselves (TCGPlayerScraper.cs:92-99 and :146-149), so a
    network failure or a timeout does not give `null`: it gives a card named `Card #<id>`
    without any price or sale (`FailedListing`). The `None` answer is kept as the abstract
    failure, so that the service's `null` branches are modelled as written. */
module Scraper {
  import opened Options
  import opened Cards
  import opened Text

  /** The provider-owned fields one successful scrape observed, and when it ran.
      The name may be empty when the details endpoint returned an empty product name. */
  datatype Listing = Listing(
    name: string,
    marketPrice: Option<Money>,
    lowestPrice: Option<Money>,
    latestSalePrice: Option<Money>,
    latestSaleDate: Option<Instant>,
    observedAt: Instant)

  /** What a scrape observes when neither endpoint answers: the details helper falls back to
      the name `Card #<id>`, and no price, sale price or sale date is filled in. */
  function FailedListing(id: int, observedAt: Instant): (l: Listing)
    ensures l.marketPrice.None? && l.lowestPrice.None? && l.latestSalePrice.None? && l.latestSaleDate.None?
    ensures |l.name| > 6 && l.name[..6] == "Card #" && l.name[6..] == IntToString(id)
    ensures id >= 0 ==> ParseNat(l.name[6..]) == id
    ensures id < 0 ==> l.name[6] == '-' && ParseNat(l.name[7..]) == -id
  {
    Listing("Card #" + IntToString(id), None, None, None, None, observedAt)
  }

  /** The card's provider-owned fields are the ones the listing observed. */
  predicate Carries(c: Card, l: Listing) {
    && c.name == l.name
    && c.marketPrice == l.marketPrice
    && c.lowestPrice == l.lowestPrice
    && c.latestSalePrice == l.latestSalePrice
    && c.latestSaleDate == l.latestSaleDate
    && c.lastUpdated == l.observedAt
  }

  /** `ScrapeCardAsync(id)`: a failed fetch gives no card; a successful one gives a new card
      for the requested `Id`, uncategorised, with quantity 1, carrying the observed fields. */
  function Scrape(id: int, fetched: Option<Listing>): (r: Option<Card>)
    ensures r.Some? <==> fetched.Some?
    ensures r.Some? ==> r.value.id == id && r.value.category == "" && r.value.amount == 1
    ensures r.Some? ==> Carries(r.value, fetched.value)
  {
    match fetched
    case None => None
    case Some(l) =>
      Some(NewCard(id, l.observedAt).(
        name := l.name,
        marketPrice := l.marketPrice,
        lowestPrice := l.lowestPrice,
        latestSalePrice := l.latestSalePrice,
        latestSaleDate := l.latestSaleDate))
  }
}

=== FILE: seqs.dfy ===
/** Order-preserving sequence helpers: the LINQ `Where` and `List.RemoveAll` of the card manager
    are both filters, and their results are subsequences of their inputs. */
module Seqs {

  /** `a` can be obtained from `b` by deleting elements, keeping the rest in order. */
  predicate Subsequence<T(==)>(a: seq<T>, b: seq<T>)
    decreases |b|
  {
    |a| == 0 || (|b| > 0 && ((a[0] == b[0] && Subsequence(a[1..], b[1..])) || Subsequence(a, b[1..])))
  }

  /** The elements of `s` that satisfy `p`, in their original order. */
  function Filter<T(==,!new)>(s: seq<T>, p: T -> bool): (r: seq<T>)
    ensures |r| <= |s|
    ensures forall i :: 0 <= i < |r| ==> r[i] in s && p(r[i])
    ensures forall i :: 0 <= i < |s| && p(s[i]) ==> s[i] in r
    ensures forall x :: multiset(r)[x] == if p(x) then multiset(s)[x] else 0
    ensures Subsequence(r, s)
    ensures (forall i :: 0 <= i < |s| ==> p(s[i])) ==> r == s
  {
    if |s| == 0 then []
    else
      assert s == [s[0]] + s[1..];
      assert multiset(s) == multiset{s[0]} + multiset(s[1..]);
      if p(s[0]) then
        var rest := Filter(s[1..], p);
        assert ([s[0]] + rest)[1..] == rest;
        assert multiset([s[0]] + rest) == multiset{s[0]} + multiset(rest);
        [s[0]] + rest
      else
        Filter(s[1..], p)
  }

  /** Every sequence is a subsequence of itself. */
  lemma {:induction false} SubsequenceOfItself<T>(s: seq<T>)
    ensures Subsequence(s, s)
  {
    if |s| > 0 {
      SubsequenceOfItself(s[1..]);
    }
  }

  /** A subsequence of a subsequence is a subsequence. */
  lemma {:induction false} SubsequenceTransitive<T>(a: seq<T>, b: seq<T>, c: seq<T>)
    requires Subsequence(a, b) && Subsequence(b, c)
    ensures Subsequence(a, c)
    decreases |c|
  {
    if |a| > 0 {
      if b[0] == c[0] && Subsequence(b[1..], c[1..]) {
        if a[0] == b[0] && Subsequence(a[1..], b[1..]) {
          SubsequenceTransitive(a[1..], b[1..], c[1..]);
        } else {
          SubsequenceTransitive(a, b[1..], c[1..]);
        }
      } else {
        SubsequenceTransitive(a, b, c[1..]);
      }
    }
  }
}

=== FILE: service.dfy ===
/** The card service: it fetches cards through the scraper and reconciles them with the
    stored collection. Each operation is a function from the store (and the scraper's
    answers) to the new store and the value handed back to the window. */
module Service {
  import opened Options
  import opened Cards
  import opened Text
  import opened Scraper
  import Store
  import Seqs

  /** What a single-card operation hands back, and the store it leaves behind. */
  datatype Reply = Reply(card: Option<Card>, store: Store.FileState)

  /** `string.IsNullOrEmpty` on a nullable string. */
  predicate IsNullOrEmpty(s: Option<string>) {
    s.None? || s.value == ""
  }

  /** `AddCardAsync(id, category)`: scrape the card; on success a non-empty category argument
      overrides the (empty) scraped category and the card is upserted into the store. */
  function AddCard(f: Store.FileState, id: int, category: Option<string>, fetched: Option<Listing>): (r: Reply)
    ensures fetched.None? ==> r.card.None? && r.store == f
    ensures fetched.Some? ==> r.card.Some?
    ensures r.card.Some? ==>
              && r.card.value.id == id
              && r.card.value.amount == 1
              && Carries(r.card.value, fetched.value)
              && r.card.value.category == (if IsNullOrEmpty(category) then "" else category.value)
              && Store.Load(r.store) == Store.Upsert(Store.Load(f), r.card.value)
  {
    match Scrape(id, fetched)
    case None => Reply(None, f)
    case Some(c) =>
      var card := if !IsNullOrEmpty(category) then c.(category := category.value) else c;
      Reply(Some(card), Store.AddOrUpdate(f, card))
  }

  /** `RefreshCardAsync(id)`: remember the category of the first stored card with the `Id`,
      scrape, put a non-empty remembered category back, and upsert. The quantity is not
      carried over: the refreshed card has the scraped default. */
  function RefreshCard(f: Store.FileState, id: int, fetched: Option<Listing>): (r: Reply)
    ensures fetched.None? ==> r.card.None? && r.store == f
    ensures fetched.Some? ==> r.card.Some?
    ensures r.card.Some? ==>
              && r.card.value.id == id
              && r.card.value.amount == 1
              && Carries(r.card.value, fetched.value)
              && Store.Load(r.store) == Store.Upsert(Store.Load(f), r.card.value)
    ensures r.card.Some? ==>
              match Store.Find(Store.Load(f), id)
              case Some(prior) => r.card.value.category == prior.category
              case None => r.card.value.category == "" && Store.Load(r.store) == Store.Load(f) + [r.card.value]
  {
    var existing := Store.Find(Store.Load(f), id);
    var existingCategory := match existing case Some(prior) => Some(prior.category) case None => None;
    match Scrape(id, fetched)
    case None => Reply(None, f)
    case Some(c) =>
      var card := if !IsNullOrEmpty(existingCategory) then c.(category := existingCategory.value) else c;
      Reply(Some(card), Store.AddOrUpdate(f, card))
  }

  /** The per-card merge of a bulk refresh: a failed fetch keeps the prior card as it was;
      a successful one takes every scraped field and the prior card's category, whatever it is. */
  function RefreshEntry(prior: Card, fetched: Option<Listing>): (r: Card)
    ensures r.id == prior.id
    ensures fetched.None? ==> r == prior
    ensures fetched.Some? ==> r.category == prior.category && r.amount == 1 && Carries(r, fetched.value)
  {
    match Scrape(prior.id, fetched)
    case None => prior
    case Some(c) => c.(category := prior.category)
  }

  /** `RefreshAllCardsAsync(progress)`: scrape every stored card in load order (the i-th scrape
      answers `fetch(i)`), merge, report `(i + 1, n)` after each card, and save the merged list once. */
  method RefreshAll(f: Store.FileState, fetch: nat -> Option<Listing>)
    returns (updated: seq<Card>, progress: seq<(int, int)>, g: Store.FileState)
    ensures |updated| == |Store.Load(f)|
    ensures forall i :: 0 <= i < |updated| ==> updated[i] == RefreshEntry(Store.Load(f)[i], fetch(i))
    ensures forall i :: 0 <= i < |updated| ==> updated[i].id == Store.Load(f)[i].id
    ensures forall i :: 0 <= i < |updated| && fetch(i).None? ==> updated[i] == Store.Load(f)[i]
    ensures Store.UniqueIds(Store.Load(f)) ==> Store.UniqueIds(updated)
    ensures |progress| == |updated|
    ensures forall i :: 0 <= i < |progress| ==> progress[i] == (i + 1, |updated|)
    ensures g == Store.Valid(updated)
  {
    var cards := Store.Load(f);
    updated := [];
    progress := [];
    var i := 0;
    while i < |cards|
      invariant 0 <= i <= |cards|
      invariant |updated| == i && |progress| == i
      invariant forall j :: 0 <= j < i ==> updated[j] == RefreshEntry(cards[j], fetch(j))
      invariant forall j :: 0 <= j < i ==> progress[j] == (j + 1, |cards|)
    {
      var refreshed := Scrape(cards[i].id, fetch(i));
      if refreshed.Some? {
        updated := updated + [refreshed.value.(category := cards[i].category)];
      } else {
        updated := updated + [cards[i]];
      }
      progress := progress + [(i + 1, |cards|)];
      i := i + 1;
    }
    g := Store.Save(updated);
  }

  /** `UpdateCardCategoryAsync(id, category)`: set the category of the first card with the `Id`
      and save; when no card has the `Id` nothing is saved. */
  function UpdateCardCategory(f: Store.FileState, id: int, category: string): (g: Store.FileState)
    ensures Store.FindIndex(Store.Load(f), id) == -1 ==> g == f
    ensures Store.FindIndex(Store.Load(f), id) >= 0 ==>
              var k := Store.FindIndex(Store.Load(f), id);
              && g.Valid?
              && |Store.Load(g)| == |Store.Load(f)|
              && Store.Load(g)[k] == Store.Load(f)[k].(category := category)
              && forall i :: 0 <= i < |Store.Load(f)| && i != k ==> Store.Load(g)[i] == Store.Load(f)[i]
  {
    var cards := Store.Load(f);
    var k := Store.FindIndex(cards, id);
    if k >= 0 then Store.Save(cards[k := cards[k].(category := category)]) else f
  }

  /** `DeleteCardAsync(id)`: delegated to the store. */
  function DeleteCard(f: Store.FileState, id: int): (g: Store.FileState)
    ensures forall i :: 0 <= i < |Store.Load(g)| ==> Store.Load(g)[i].id != id
    ensures forall i :: 0 <= i < |Store.Load(f)| && Store.Load(f)[i].id != id ==> Store.Load(f)[i] in Store.Load(g)
    ensures forall c :: multiset(Store.Load(g))[c] == if c.id != id then multiset(Store.Load(f))[c] else 0
    ensures |Store.Load(g)| == |Store.Load(f)| - Store.IdCount(Store.Load(f), id)
    ensures Seqs.Subsequence(Store.Load(g), Store.Load(f))
    ensures Store.FindIndex(Store.Load(f), id) == -1 ==> Store.Load(g) == Store.Load(f)
  {
    Store.RemoveAllLength(Store.Load(f), id);
    Store.Delete(f, id)
  }

  // ---------------------------------------------------------------------------
  // Category listing

  /** Some card carries the category `x`. */
  predicate HasCategory(cards: seq<Card>, x: string) {
    exists i :: 0 <= i < |cards| && cards[i].category == x
  }

  /** The non-empty categories of the cards, in card order (`Where` then `Select`). */
  function CategoriesOf(cards: seq<Card>): (r: seq<string>)
    ensures forall x :: x in r <==> x != "" && HasCategory(cards, x)
  {
    if |cards| == 0 then []
    else
      var rest := CategoriesOf(cards[1..]);
      assert forall i :: 1 <= i < |cards| ==> cards[i] == cards[1..][i - 1];
      if cards[0].category != "" then [cards[0].category] + rest else rest
  }

  /** `x` sorts strictly before every element of the sorted list `s` once it sorts before its head. */
  lemma BelowSorted(x: string, s: seq<string>)
    requires StrictlySorted(s) && |s| > 0 && Less(x, s[0])
    ensures forall j :: 0 <= j < |s| ==> Less(x, s[j])
  {
    forall j | 0 < j < |s|
      ensures Less(x, s[j])
    {
      LessTransitive(x, s[0], s[j]);
    }
  }

  /** Insert `x` into a strictly sorted list unless it is already there. */
  function InsertUnique(s: seq<string>, x: string): (r: seq<string>)
    requires StrictlySorted(s)
    ensures StrictlySorted(r)
    ensures forall y :: y in r <==> y in s || y == x
  {
    if |s| == 0 then [x]
    else if x == s[0] then s
    else if Less(x, s[0]) then
      BelowSorted(x, s);
      [x] + s
    else
      LessTotal(x, s[0]);
      var rest := InsertUnique(s[1..], x);
      assert forall y :: y in rest ==> Less(s[0], y);
      [s[0]] + rest
  }

  /** `Distinct().OrderBy(c => c)`: the distinct elements of `xs`, strictly ascending. */
  function SortedDistinct(xs: seq<string>): (r: seq<string>)
    ensures StrictlySorted(r)
    ensures forall y :: y in r <==> y in xs
  {
    if |xs| == 0 then []
    else
      var init := xs[..|xs| - 1];
      assert xs == init + [xs[|xs| - 1]];
      InsertUnique(SortedDistinct(init), xs[|xs| - 1])
  }

  /** `GetAllCategoriesAsync()`: the distinct non-empty categories of the stored cards, ascending. */
  function GetAllCategories(f: Store.FileState): (r: seq<string>)
    ensures StrictlySorted(r)
    ensures "" !in r
    ensures forall x :: x in r <==> x != "" && HasCategory(Store.Load(f), x)
  {
    SortedDistinct(CategoriesOf(Store.Load(f)))
  }

  // ---------------------------------------------------------------------------
  // Properties relating several operations

  /** A strictly ascending list has no duplicates. */
  lemma SortedHasNoDuplicates(s: seq<string>)
    requires StrictlySorted(s)
    ensures forall i, j :: 0 <= i < j < |s| ==> s[i] != s[j]
  {
    forall i, j | 0 <= i < j < |s|
      ensures s[i] != s[j]
    {
      LessIrreflexive(s[i]);
    }
  }

  /** Two strictly ascending lists with the same elements are the same list. */
  lemma {:induction false} SortedUnique(a: seq<string>, b: seq<string>)
    requires StrictlySorted(a) && StrictlySorted(b)
    requires forall y :: y in a <==> y in b
    ensures a == b
    decreases |a|
  {
    if |a| > 0 && |b| > 0 {
      assert a[0] in b;
      assert b[0] in a;
      if a[0] != b[0] {
        var i :| 0 <= i < |a| && a[i] == b[0];
        var j :| 0 <= j < |b| && b[j] == a[0];
        LessTransitive(a[0], b[0], a[0]);
        LessIrreflexive(a[0]);
      }
      forall y
        ensures y in a[1..] <==> y in b[1..]
      {
        if y in a[1..] {
          var i :| 1 <= i < |a| && a[i] == y;
          LessIrreflexive(a[0]);
          assert y in a;
          var j :| 0 <= j < |b| && b[j] == y;
          assert j != 0;
          assert b[1..][j - 1] == y;
        }
        if y in b[1..] {
          var j :| 1 <= j < |b| && b[j] == y;
          LessIrreflexive(b[0]);
          assert y in b;
          var i :| 0 <= i < |a| && a[i] == y;
          assert i != 0;
          assert a[1..][i - 1] == y;
        }
      }
      SortedUnique(a[1..], b[1..]);
    } else {
      SameElementsSameEmptiness(a, b);
    }
  }

  lemma SameElementsSameEmptiness(a: seq<string>, b: seq<string>)
    requires forall y :: y in a <==> y in b
    ensures |a| == 0 <==> |b| == 0
  {
    if |a| > 0 {
      assert a[0] in b;
    }
    if |b| > 0 {
      assert b[0] in a;
    }
  }

  /** The category listing depends only on which categories are stored, not on the order
      or the number of the cards that carry them. */
  lemma CategoriesDependOnlyOnTheirSet(f: Store.FileState, g: Store.FileState)
    requires forall x :: HasCategory(Store.Load(f), x) <==> HasCategory(Store.Load(g), x)
    ensures GetAllCategories(f) == GetAllCategories(g)
  {
    SortedUnique(GetAllCategories(f), GetAllCategories(g));
  }

  /** Cards categorised "", "Fire", "Fire" and "Water" list exactly ["Fire", "Water"]. */
  lemma CategoryListingExample(c: Card)
    ensures var cards := [c.(category := ""), c.(category := "Fire"), c.(category := "Fire"), c.(category := "Water")];
            GetAllCategories(Store.Valid(cards)) == ["Fire", "Water"]
  {
    var cards := [c.(category := ""), c.(category := "Fire"), c.(category := "Fire"), c.(category := "Water")];
    var expected := ["Fire", "Water"];
    assert Less("Fire", "Water");
    assert cards[1].category == "Fire" && cards[3].category == "Water";
    SortedUnique(GetAllCategories(Store.Valid(cards)), expected);
  }

  /** Adding the same card twice, with no category, leaves one entry for it: the second fetch. */
  lemma AddTwiceKeepsOneEntry(f: Store.FileState, id: int, first: Listing, second: Listing)
    requires Store.UniqueIds(Store.Load(f))
    ensures var once := AddCard(f, id, None, Some(first));
            var twice := AddCard(once.store, id, None, Some(second));
            && Store.Load(twice.store) == Store.Upsert(Store.Load(f), twice.card.value)
            && Store.UniqueIds(Store.Load(twice.store))
            && Store.IdCount(Store.Load(twice.store), id) == 1
  {
    var once := AddCard(f, id, None, Some(first));
    var twice := AddCard(once.store, id, None, Some(second));
    Store.UpsertOverridesUpsert(Store.Load(f), once.card.value, twice.card.value);
    Store.UpsertKeepsIdsUnique(Store.Load(f), twice.card.value);
    UniqueIdCount(Store.Load(twice.store), twice.card.value);
  }

  /** In a list with unique `Id`s that holds `card`, its `Id` occurs exactly once. */
  lemma {:induction false} UniqueIdCount(cards: seq<Card>, card: Card)
    requires Store.UniqueIds(cards) && card in cards
    ensures Store.IdCount(cards, card.id) == 1
  {
    if cards[0] == card {
      NoIdCount(cards[1..], card.id);
    } else {
      UniqueIdCount(cards[1..], card);
    }
  }

  lemma {:induction false} NoIdCount(cards: seq<Card>, id: int)
    requires forall i :: 0 <= i < |cards| ==> cards[i].id != id
    ensures Store.IdCount(cards, id) == 0
  {
    if |cards| > 0 {
      NoIdCount(cards[1..], id);
    }
  }

  /** A category set by the user survives a later refresh of that card. */
  lemma CategorySurvivesRefresh(f: Store.FileState, id: int, category: string, fetched: Listing)
    requires exists i :: 0 <= i < |Store.Load(f)| && Store.Load(f)[i].id == id
    ensures RefreshCard(UpdateCardCategory(f, id, category), id, Some(fetched)).card.value.category == category
  {}

  /** A successful refresh resets the quantity to the scraped default of 1, whatever was stored. */
  lemma RefreshResetsAmount(f: Store.FileState, id: int, fetched: Listing)
    ensures RefreshCard(f, id, Some(fetched)).card.value.amount == 1
    ensures var cards := Store.Load(RefreshCard(f, id, Some(fetched)).store);
            cards[Store.FindIndex(cards, id)].amount == 1
  {}

  /** A bulk refresh during a network failure does not keep the old data: the entry is
      replaced by the placeholder card, which has no price and no total, is named `Card #<id>`
      and has quantity 1; only the `Id` and the category survive. */
  lemma TransportFailureOverwritesEntry(prior: Card, t: Instant)
    ensures RefreshEntry(prior, Some(FailedListing(prior.id, t)))
              == prior.(name := "Card #" + IntToString(prior.id), marketPrice := None, lowestPrice := None,
                        latestSalePrice := None, latestSaleDate := None, lastUpdated := t, amount := 1)
    ensures var r := RefreshEntry(prior, Some(FailedListing(prior.id, t)));
            && r.name == "Card #" + IntToString(prior.id)
            && Price(r).None? && TotalValue(r).None?
            && r.id == prior.id && r.category == prior.category && r.amount == 1
  {}

  /** The same holds for a single-card refresh: the stored entry for the `Id` loses its prices. */
  lemma TransportFailureOverwritesStoredCard(f: Store.FileState, id: int, t: Instant)
    ensures var r := RefreshCard(f, id, Some(FailedListing(id, t)));
            && r.card.Some?
            && Price(r.card.value).None? && TotalValue(r.card.value).None?
            && r.card.value.name == "Card #" + IntToString(id)
            && Store.Load(r.store) == Store.Upsert(Store.Load(f), r.card.value)
  {}

  /** Adding a card keeps the stored `Id`s unique. */
  lemma AddCardKeepsIdsUnique(f: Store.FileState, id: int, category: Option<string>, fetched: Option<Listing>)
    requires Store.UniqueIds(Store.Load(f))
    ensures Store.UniqueIds(Store.Load(AddCard(f, id, category, fetched).store))
  {}

  /** Refreshing a card keeps the stored `Id`s unique. */
  lemma RefreshCardKeepsIdsUnique(f: Store.FileState, id: int, fetched: Option<Listing>)
    requires Store.UniqueIds(Store.Load(f))
    ensures Store.UniqueIds(Store.Load(RefreshCard(f, id, fetched).store))
  {}

  /** Changing a category keeps the stored `Id`s unique. */
  lemma UpdateCategoryKeepsIdsUnique(f: Store.FileState, id: int, category: string)
    requires Store.UniqueIds(Store.Load(f))
    ensures Store.UniqueIds(Store.Load(UpdateCardCategory(f, id, category)))
  {}

  /** Deleting a card keeps the stored `Id`s unique. */
  lemma DeleteCardKeepsIdsUnique(f: Store.FileState, id: int)
    requires Store.UniqueIds(Store.Load(f))
    ensures Store.UniqueIds(Store.Load(DeleteCard(f, id)))
  {
    Store.RemoveAllKeepsIdsUnique(Store.Load(f), id);
  }
}

=== FILE: store.dfy ===
/** The JSON card repository: the whole collection lives in one file, every operation
    loads it, changes the list and writes the whole list back. The file is abstracted
    to the states that decide what a load returns. */
module Store {
  import opened Cards
  import opened Seqs

  /** What the backing `cards.json` holds. */
  datatype FileState =
    | Missing                    // the file does not exist
    | Blank                      // empty or white space only
    | NullDocument               // the JSON literal `null`
    | Malformed                  // unreadable, or not a JSON list of cards
    | Valid(cards: seq<Card>)    // a list of cards

  /** Reading the collection never fails: anything but a readable list gives the empty list. */
  function Load(f: FileState): (cards: seq<Card>)
    ensures !f.Valid? ==> cards == []
    ensures f.Valid? ==> cards == f.cards
  {
    match f
    case Valid(cs) => cs
    case _ => []
  }

  /** Writing the collection replaces the whole file. */
  function Save(cards: seq<Card>): (f: FileState)
    ensures Load(f) == cards
  {
    Valid(cards)
  }

  /** `List.FindIndex(c => c.Id == id)`: the first position holding `id`, or -1. */
  function FindIndex(cards: seq<Card>, id: int): (k: int)
    ensures -1 <= k < |cards|
    ensures k == -1 <==> forall i :: 0 <= i < |cards| ==> cards[i].id != id
    ensures k >= 0 ==> cards[k].id == id && forall i :: 0 <= i < k ==> cards[i].id != id
  {
    if |cards| == 0 then -1
    else if cards[0].id == id then 0
    else
      var k := FindIndex(cards[1..], id);
      if k == -1 then -1 else k + 1
  }

  /** `FirstOrDefault(c => c.Id == id)`: the first card holding `id`, if any. */
  function Find(cards: seq<Card>, id: int): (r: Options.Option<Card>)
    ensures r.Some? <==> exists i :: 0 <= i < |cards| && cards[i].id == id
    ensures r.Some? ==> r.value == cards[FindIndex(cards, id)]
  {
    var k := FindIndex(cards, id);
    if k >= 0 then Options.Some(cards[k]) else Options.None
  }

  /** No two entries share an `Id`. */
  predicate UniqueIds(cards: seq<Card>) {
    forall i, j :: 0 <= i < j < |cards| ==> cards[i].id != cards[j].id
  }

  /** The entry under `id` is replaced by `card` in place, or `card` is appended when
      no entry holds `id`. */
  function ReplaceOrAppend(cards: seq<Card>, id: int, card: Card): (r: seq<Card>)
    ensures FindIndex(cards, id) >= 0 ==>
              |r| == |cards| && r[FindIndex(cards, id)] == card
              && forall i :: 0 <= i < |cards| && i != FindIndex(cards, id) ==> r[i] == cards[i]
    ensures FindIndex(cards, id) == -1 ==>
              |r| == |cards| + 1 && r[|cards|] == card
              && forall i :: 0 <= i < |cards| ==> r[i] == cards[i]
  {
    var k := FindIndex(cards, id);
    if k >= 0 then cards[k := card] else cards + [card]
  }

  /** The list change of `AddOrUpdateCardAsync`: upsert by the card's own `Id`. */
  function Upsert(cards: seq<Card>, card: Card): (r: seq<Card>)
    ensures exists k :: 0 <= k < |r| && r[k] == card
    ensures |r| == |cards| || |r| == |cards| + 1
  {
    ReplaceOrAppend(cards, card.id, card)
  }

  /** The list change of `DeleteCardAsync`: `RemoveAll(c => c.Id == id)`. */
  function RemoveAll(cards: seq<Card>, id: int): (r: seq<Card>)
    ensures forall i :: 0 <= i < |r| ==> r[i].id != id && r[i] in cards
    ensures forall i :: 0 <= i < |cards| && cards[i].id != id ==> cards[i] in r
    ensures forall c :: multiset(r)[c] == if c.id != id then multiset(cards)[c] else 0
    ensures Subsequence(r, cards)
    ensures FindIndex(cards, id) == -1 ==> r == cards
  {
    Filter(cards, HoldsOtherThan(id))
  }

  /** The test `c => c.Id != id`. */
  function HoldsOtherThan(id: int): Card -> bool {
    (c: Card) => c.id != id
  }

  /** The number of entries holding `id`. */
  function IdCount(cards: seq<Card>, id: int): nat {
    if |cards| == 0 then 0 else (if cards[0].id == id then 1 else 0) + IdCount(cards[1..], id)
  }

  /** `AddOrUpdateCardAsync`: load, upsert, save. */
  function AddOrUpdate(f: FileState, card: Card): (g: FileState)
    ensures g.Valid?
    ensures Load(g) == Upsert(Load(f), card)
  {
    Save(Upsert(Load(f), card))
  }

  /** `DeleteCardAsync`: load, remove every entry with the `Id`, save. */
  function Delete(f: FileState, id: int): (g: FileState)
    ensures g.Valid?
    ensures Load(g) == RemoveAll(Load(f), id)
  {
    Save(RemoveAll(Load(f), id))
  }

  // ---------------------------------------------------------------------------
  // Properties of the store operations

  /** Loading what was saved gives back exactly the saved list. */
  lemma SaveLoadRoundTrip(cards: seq<Card>)
    ensures Load(Save(cards)) == cards
  {}

  /** Upserting a card whose `Id` is stored replaces the first such entry in place. */
  lemma UpsertExisting(cards: seq<Card>, card: Card, k: nat)
    requires k < |cards| && cards[k].id == card.id
    requires forall i :: 0 <= i < k ==> cards[i].id != card.id
    ensures Upsert(cards, card) == cards[k := card]
  {}

  /** Upserting a card whose `Id` is not stored appends it and keeps every prior entry. */
  lemma UpsertNew(cards: seq<Card>, card: Card)
    requires forall i :: 0 <= i < |cards| ==> cards[i].id != card.id
    ensures Upsert(cards, card) == cards + [card]
  {}

  /** Upsert keeps the `Id`s unique, and afterwards the card's `Id` is held by that card alone. */
  lemma UpsertKeepsIdsUnique(cards: seq<Card>, card: Card)
    requires UniqueIds(cards)
    ensures UniqueIds(Upsert(cards, card))
    ensures exists k :: 0 <= k < |Upsert(cards, card)| && Upsert(cards, card)[k] == card
              && forall i :: 0 <= i < |Upsert(cards, card)| && Upsert(cards, card)[i].id == card.id ==> i == k
  {}

  /** A second upsert under the same `Id` overrides the first: only the later card is kept. */
  lemma UpsertOverridesUpsert(cards: seq<Card>, first: Card, second: Card)
    requires first.id == second.id
    ensures Upsert(Upsert(cards, first), second) == Upsert(cards, second)
  {}

  /** Removing an `Id` drops exactly the entries that hold it. */
  lemma {:induction false} RemoveAllLength(cards: seq<Card>, id: int)
    ensures |RemoveAll(cards, id)| == |cards| - IdCount(cards, id)
  {
    if |cards| > 0 {
      RemoveAllLength(cards[1..], id);
    }
  }

  /** Removing an `Id` keeps the other `Id`s unique. */
  lemma RemoveAllKeepsIdsUnique(cards: seq<Card>, id: int)
    requires UniqueIds(cards)
    ensures UniqueIds(RemoveAll(cards, id))
  {
    SubsequenceKeepsIdsUnique(RemoveAll(cards, id), cards);
  }

  lemma {:induction false} SubsequenceKeepsIdsUnique(a: seq<Card>, b: seq<Card>)
    requires Subsequence(a, b) && UniqueIds(b)
    ensures UniqueIds(a)
    decreases |b|
  {
    if |a| > 0 {
      assert |b| > 0;
      if a[0] == b[0] && Subsequence(a[1..], b[1..]) {
        SubsequenceKeepsIdsUnique(a[1..], b[1..]);
        SubsequenceMembers(a[1..], b[1..]);
        forall j | 0 < j < |a|
          ensures a[0].id != a[j].id
        {
          assert a[1..][j - 1] == a[j];
          var m :| 0 <= m < |b[1..]| && b[1..][m] == a[j];
          assert b[m + 1] == a[j];
        }
      } else {
        SubsequenceKeepsIdsUnique(a, b[1..]);
      }
    }
  }

  lemma {:induction false} SubsequenceMembers<T>(a: seq<T>, b: seq<T>)
    requires Subsequence(a, b)
    ensures forall i :: 0 <= i < |a| ==> exists m :: 0 <= m < |b| && b[m] == a[i]
    decreases |b|
  {
    if |a| > 0 {
      if a[0] == b[0] && Subsequence(a[1..], b[1..]) {
        SubsequenceMembers(a[1..], b[1..]);
        forall i | 0 < i < |a|
          ensures exists m :: 0 <= m < |b| && b[m] == a[i]
        {
          assert a[1..][i - 1] == a[i];
          var m :| 0 <= m < |b[1..]| && b[1..][m] == a[i];
          assert b[m + 1] == a[i];
        }
      } else {
        SubsequenceMembers(a, b[1..]);
        forall i | 0 <= i < |a|
          ensures exists m :: 0 <= m < |b| && b[m] == a[i]
        {
          var m :| 0 <= m < |b[1..]| && b[1..][m] == a[i];
          assert b[m + 1] == a[i];
        }
      }
    }
  }

  /** Deleting an `Id` that is not stored leaves the stored list as it was. */
  lemma DeleteAbsentKeepsContents(f: FileState, id: int)
    requires forall i :: 0 <= i < |Load(f)| ==> Load(f)[i].id != id
    ensures Load(Delete(f, id)) == Load(f)
  {}

  /** An upsert on a file that cannot be read starts from the empty list: the file then
      holds only the new card. */
  lemma UpsertOnUnreadableFile(f: FileState, card: Card)
    requires !f.Valid?
    ensures AddOrUpdate(f, card) == Valid([card])
  {}
}

=== FILE: text.dfy ===
/** The string operations the card manager relies on: `Trim`, ordinal `Contains`,
    the decimal rendering of integers (`int.ToString()`), and an ordinal string order. */
module Text {

  /** `char.IsWhiteSpace`: the characters of the Unicode White_Space property. */
  predicate IsWhiteSpace(ch: char) {
    ('\t' <= ch <= '\r') || ch == ' ' || ch == '\U{85}' || ch == '\U{A0}' || ch == '\U{1680}'
    || ('\U{2000}' <= ch <= '\U{200A}') || ch == '\U{2028}' || ch == '\U{2029}'
    || ch == '\U{202F}' || ch == '\U{205F}' || ch == '\U{3000}'
  }

  /** `s` without its leading white space. */
  function TrimStart(s: string): (r: string)
    ensures |r| <= |s| && r == s[|s| - |r|..]
    ensures forall i :: 0 <= i < |s| - |r| ==> IsWhiteSpace(s[i])
    ensures r == [] || !IsWhiteSpace(r[0])
  {
    if |s| > 0 && IsWhiteSpace(s[0]) then TrimStart(s[1..]) else s
  }

  /** `s` without its trailing white space. */
  function TrimEnd(s: string): (r: string)
    ensures |r| <= |s| && r == s[..|r|]
    ensures forall i :: |r| <= i < |s| ==> IsWhiteSpace(s[i])
    ensures r == [] || !IsWhiteSpace(r[|r| - 1])
  {
    if |s| > 0 && IsWhiteSpace(s[|s| - 1]) then TrimEnd(s[..|s| - 1]) else s
  }

  /** `r` is `s` with the `k` characters before it and the ones after it all white space. */
  predicate TrimmedAt(s: string, r: string, k: int) {
    && 0 <= k <= |s| - |r|
    && s[k..k + |r|] == r
    && (forall i :: 0 <= i < k ==> IsWhiteSpace(s[i]))
    && (forall i :: k + |r| <= i < |s| ==> IsWhiteSpace(s[i]))
  }

  /** `string.Trim()`: white space removed from both ends. */
  function Trim(s: string): (r: string)
    ensures exists k :: TrimmedAt(s, r, k)
    ensures r == [] || (!IsWhiteSpace(r[0]) && !IsWhiteSpace(r[|r| - 1]))
  {
    var front := TrimStart(s);
    var r := TrimEnd(front);
    assert TrimmedAt(s, r, |s| - |front|) by {
      assert s[|s| - |front|..][..|r|] == s[|s| - |front|..|s| - |front| + |r|];
      forall i | |s| - |front| + |r| <= i < |s|
        ensures IsWhiteSpace(s[i])
      {
        assert s[i] == front[i - (|s| - |front|)];
      }
    }
    r
  }

  /** A string with no white space at either end is its own trim. */
  lemma TrimKeepsInnerText(s: string)
    requires s == [] || (!IsWhiteSpace(s[0]) && !IsWhiteSpace(s[|s| - 1]))
    ensures Trim(s) == s
  {}

  /** `p` is a prefix of `s`. */
  predicate IsPrefix(p: string, s: string) {
    |p| <= |s| && s[..|p|] == p
  }

  /** Ordinal `string.Contains`: `needle` occurs somewhere in `hay`. */
  predicate Contains(hay: string, needle: string)
    decreases |hay|
  {
    IsPrefix(needle, hay) || (|hay| > 0 && Contains(hay[1..], needle))
  }

  /** `needle` occurs in `hay` starting at position `k`. */
  predicate OccursAt(hay: string, needle: string, k: int) {
    0 <= k && k + |needle| <= |hay| && hay[k..k + |needle|] == needle
  }

  /** `Contains` holds exactly when `needle` occurs at some position of `hay`. */
  lemma {:induction false} ContainsAt(hay: string, needle: string)
    ensures Contains(hay, needle) <==> exists k :: OccursAt(hay, needle, k)
  {
    if IsPrefix(needle, hay) {
      assert OccursAt(hay, needle, 0);
    } else if |hay| > 0 {
      ContainsAt(hay[1..], needle);
      if Contains(hay[1..], needle) {
        var k :| OccursAt(hay[1..], needle, k);
        assert hay[1..][k..k + |needle|] == hay[k + 1..k + 1 + |needle|];
        assert OccursAt(hay, needle, k + 1);
      }
      if k :| OccursAt(hay, needle, k) {
        assert k != 0;
        assert hay[1..][k - 1..k - 1 + |needle|] == hay[k..k + |needle|];
        assert OccursAt(hay[1..], needle, k - 1);
      }
    }
  }

  /** The decimal digit for `d`. */
  function DigitChar(d: nat): char
    requires d < 10
  {
    "0123456789"[d]
  }

  /** The value of a decimal digit character (0 for any other character). */
  function DigitValue(ch: char): nat {
    if '0' <= ch <= '9' then (ch as int - '0' as int) else 0
  }

  /** The decimal rendering of a non-negative integer, without leading zeros. */
  function NatToString(n: nat): (s: string)
    ensures |s| > 0
    ensures forall i :: 0 <= i < |s| ==> '0' <= s[i] <= '9'
    ensures |s| > 1 ==> s[0] != '0'
  {
    if n < 10 then [DigitChar(n)] else NatToString(n / 10) + [DigitChar(n % 10)]
  }

  /** `int.ToString()`: a minus sign for negative numbers, then the decimal digits. */
  function IntToString(n: int): (s: string)
    ensures |s| > 0
    ensures n < 0 <==> s[0] == '-'
    ensures n >= 0 ==> '0' <= s[0] <= '9'
    ensures forall i :: 0 < i < |s| ==> '0' <= s[i] <= '9'
    ensures n >= 0 && |s| > 1 ==> s[0] != '0'
    ensures n < 0 ==> |s| > 1 && (|s| > 2 ==> s[1] != '0')
    ensures n >= 0 ==> ParseNat(s) == n
    ensures n < 0 ==> ParseNat(s[1..]) == -n
  {
    if n < 0 then
      var digits := NatToString(-n);
      ParseNatToString(-n);
      assert ("-" + digits)[1..] == digits;
      "-" + digits
    else
      ParseNatToString(n);
      NatToString(n)
  }

  /** Reads a string of decimal digits back as a number. */
  function ParseNat(s: string): nat {
    if |s| == 0 then 0 else ParseNat(s[..|s| - 1]) * 10 + DigitValue(s[|s| - 1])
  }

  /** Rendering a number in decimal and reading it back gives the number. */
  lemma {:induction false} ParseNatToString(n: nat)
    ensures ParseNat(NatToString(n)) == n
  {
    if n >= 10 {
      var s := NatToString(n);
      assert s[..|s| - 1] == NatToString(n / 10);
      ParseNatToString(n / 10);
    }
  }

  /** Different numbers have different decimal renderings. */
  lemma NatToStringInjective(m: nat, n: nat)
    ensures NatToString(m) == NatToString(n) ==> m == n
  {
    ParseNatToString(m);
    ParseNatToString(n);
  }

  /** Ordinal string order: `a` sorts strictly before `b`, comparing character codes
      from the left, with a proper prefix sorting first. */
  predicate Less(a: string, b: string)
    decreases |a|
  {
    |b| > 0 && (|a| == 0 || a[0] < b[0] || (a[0] == b[0] && Less(a[1..], b[1..])))
  }

  lemma {:induction false} LessIrreflexive(a: string)
    ensures !Less(a, a)
  {
    if |a| > 0 {
      LessIrreflexive(a[1..]);
    }
  }

  lemma {:induction false} LessTransitive(a: string, b: string, c: string)
    requires Less(a, b) && Less(b, c)
    ensures Less(a, c)
  {
    if |a| > 0 && a[0] == b[0] && b[0] == c[0] {
      LessTransitive(a[1..], b[1..], c[1..]);
    }
  }

  /** Any two different strings are ordered one way or the other. */
  lemma {:induction false} LessTotal(a: string, b: string)
    requires a != b
    ensures Less(a, b) || Less(b, a)
  {
    if |a| > 0 && |b| > 0 && a[0] == b[0] {
      assert a == [a[0]] + a[1..] && b == [b[0]] + b[1..];
      LessTotal(a[1..], b[1..]);
    }
  }

  /** Strictly ascending in the ordinal order, hence free of duplicates. */
  predicate StrictlySorted(s: seq<string>) {
    forall i, j :: 0 <= i < j < |s| ==> Less(s[i], s[j])
  }
}

=== FILE: window.dfy ===
/** The pure logic inside the main window: the search and category filter, the collection
    total, the card-count label, the column-sort toggle with its sort keys, and the window's
    own copy of the collection after a card is added. Controls and dialogs are not modelled;
    the culture-sensitive `ToLower` is a parameter. */
module Window {
  import opened Options
  import opened Cards
  import opened Seqs
  import opened Text
  import Store
  import Service
  import Scraper

  // ---------------------------------------------------------------------------
  // Search and category filter

  /** The search text: `SearchTextBox?.Text?.Trim().ToLower() ?? ""`. */
  function SearchText(box: Option<string>, lower: string -> string): (needle: string)
    ensures box.None? ==> needle == ""
    ensures box.Some? && (forall t :: |lower(t)| == |t|) ==>
              |needle| <= |box.value| && (needle == "" <==> forall i :: 0 <= i < |box.value| ==> IsWhiteSpace(box.value[i]))
  {
    match box
    case None => ""
    case Some(text) => lower(Trim(text))
  }

  /** The search text occurs in the lower-cased name, the decimal `Id` or the lower-cased category. */
  predicate MatchesSearch(c: Card, needle: string, lower: string -> string)
    ensures MatchesSearch(c, needle, lower) <==>
              (exists k :: OccursAt(lower(c.name), needle, k))
              || (exists k :: OccursAt(IntToString(c.id), needle, k))
              || (exists k :: OccursAt(lower(c.category), needle, k))
  {
    ContainsAt(lower(c.name), needle);
    ContainsAt(IntToString(c.id), needle);
    ContainsAt(lower(c.category), needle);
    Contains(lower(c.name), needle) || Contains(IntToString(c.id), needle) || Contains(lower(c.category), needle)
  }

  /** A card passes both filters: the category filter (exact, case-sensitive) when one is
      selected, and the search when the search text is not empty. */
  predicate Passes(c: Card, categoryFilter: string, needle: string, lower: string -> string) {
    (categoryFilter == "" || c.category == categoryFilter) && (needle == "" || MatchesSearch(c, needle, lower))
  }

  /** `ApplyFilter`: the category filter, then the search filter, each keeping the card order. */
  function ApplyFilter(cards: seq<Card>, categoryFilter: string, box: Option<string>, lower: string -> string): (r: seq<Card>)
    ensures Subsequence(r, cards)
    ensures forall i :: 0 <= i < |r| ==> r[i] in cards && Passes(r[i], categoryFilter, SearchText(box, lower), lower)
    ensures forall i :: 0 <= i < |cards| && Passes(cards[i], categoryFilter, SearchText(box, lower), lower) ==> cards[i] in r
    ensures forall c :: multiset(r)[c] == if Passes(c, categoryFilter, SearchText(box, lower), lower) then multiset(cards)[c] else 0
    ensures categoryFilter == "" && SearchText(box, lower) == "" ==> r == cards
  {
    var needle := SearchText(box, lower);
    var byCategory := if categoryFilter != "" then Filter(cards, (c: Card) => c.category == categoryFilter) else cards;
    var bySearch := if needle != "" then Filter(byCategory, (c: Card) => MatchesSearch(c, needle, lower)) else byCategory;
    SubsequenceOfItself(cards);
    SubsequenceOfItself(byCategory);
    SubsequenceTransitive(bySearch, byCategory, cards);
    bySearch
  }

  /** With no category selected and a search box holding only white space, nothing is filtered out
      (given that lower-casing keeps the length of a string, as `ToLower` does). */
  lemma BlankSearchKeepsEverything(cards: seq<Card>, text: string, lower: string -> string)
    requires forall s :: |lower(s)| == |s|
    requires forall i :: 0 <= i < |text| ==> IsWhiteSpace(text[i])
    ensures ApplyFilter(cards, "", Some(text), lower) == cards
  {}

  /** A card whose `Id` is typed into the search box is found, whatever its name and category
      (given that lower-casing leaves the digits and the minus sign alone, as `ToLower` does). */
  lemma SearchById(cards: seq<Card>, i: nat, lower: string -> string)
    requires i < |cards|
    requires lower(IntToString(cards[i].id)) == IntToString(cards[i].id)
    ensures cards[i] in ApplyFilter(cards, "", Some(IntToString(cards[i].id)), lower)
  {
    var id := IntToString(cards[i].id);
    assert !IsWhiteSpace(id[0]) && !IsWhiteSpace(id[|id| - 1]);
    TrimKeepsInnerText(id);
    assert IsPrefix(id, id);
  }

  // ---------------------------------------------------------------------------
  // Collection total and count label

  /** The card has a total value. */
  predicate HasTotalValue(c: Card) {
    TotalValue(c).Some?
  }

  /** The sum of the total values of the cards, a card without one counting as 0. */
  function SumOfTotals(cards: seq<Card>): Money {
    if |cards| == 0 then 0.0 else TotalValue(cards[0]).GetOr(0.0) + SumOfTotals(cards[1..])
  }

  /** `UpdateTotalPrice`: the sum of `TotalValue` over all cards that have one. */
  function CollectionTotal(allCards: seq<Card>): (total: Money)
    ensures (forall i :: 0 <= i < |allCards| ==> !HasTotalValue(allCards[i])) ==> total == 0.0
  {
    SumOfTotals(Filter(allCards, HasTotalValue))
  }

  /** Cards without a price contribute nothing: the total equals the sum that counts them as 0. */
  lemma {:induction false} PricelessCardsCountZero(cards: seq<Card>)
    ensures CollectionTotal(cards) == SumOfTotals(cards)
  {
    if |cards| > 0 {
      PricelessCardsCountZero(cards[1..]);
      if HasTotalValue(cards[0]) {
        var rest := Filter(cards[1..], HasTotalValue);
        assert Filter(cards, HasTotalValue) == [cards[0]] + rest;
        assert ([cards[0]] + rest)[1..] == rest;
      }
    }
  }

  /** The total of two collections together is the sum of their totals. */
  lemma {:induction false} TotalOfConcatenation(a: seq<Card>, b: seq<Card>)
    ensures CollectionTotal(a + b) == CollectionTotal(a) + CollectionTotal(b)
  {
    PricelessCardsCountZero(a + b);
    PricelessCardsCountZero(a);
    PricelessCardsCountZero(b);
    SumOfTotalsConcatenation(a, b);
  }

  lemma {:induction false} SumOfTotalsConcatenation(a: seq<Card>, b: seq<Card>)
    ensures SumOfTotals(a + b) == SumOfTotals(a) + SumOfTotals(b)
  {
    if |a| > 0 {
      assert (a + b)[1..] == a[1..] + b;
      SumOfTotalsConcatenation(a[1..], b);
    } else {
      assert a + b == b;
    }
  }

  /** With non-negative prices and quantities the total is never negative. */
  lemma {:induction false} TotalNonNegative(cards: seq<Card>)
    requires forall i :: 0 <= i < |cards| ==> cards[i].amount >= 0
    requires forall i :: 0 <= i < |cards| ==> Price(cards[i]).GetOr(0.0) >= 0.0
    ensures CollectionTotal(cards) >= 0.0
  {
    PricelessCardsCountZero(cards);
    SumOfTotalsNonNegative(cards);
  }

  lemma {:induction false} SumOfTotalsNonNegative(cards: seq<Card>)
    requires forall i :: 0 <= i < |cards| ==> cards[i].amount >= 0
    requires forall i :: 0 <= i < |cards| ==> Price(cards[i]).GetOr(0.0) >= 0.0
    ensures SumOfTotals(cards) >= 0.0
  {
    if |cards| > 0 {
      SumOfTotalsNonNegative(cards[1..]);
      var c := cards[0];
      if Price(c).Some? {
        var p := Price(c).value;
        assert p >= 0.0 && c.amount as real >= 0.0;
        assert p * c.amount as real >= 0.0;
      }
    }
  }

  /** `UpdateCardCount`: "1 card" for one card, "<n> cards" otherwise. */
  function CountLabel(count: nat): (caption: string)
    ensures count == 1 ==> caption == "1 card"
    ensures count != 1 ==> caption == NatToString(count) + " cards"
  {
    if count == 1 then "1 card" else NatToString(count) + " cards"
  }

  /** Different counts always give different labels. */
  lemma CountLabelInjective(m: nat, n: nat)
    requires CountLabel(m) == CountLabel(n)
    ensures m == n
  {
    if m != 1 && n != 1 {
      var sm := NatToString(m);
      var sn := NatToString(n);
      assert |sm| == |sn| && sm == (sm + " cards")[..|sm|] by {
        assert |sm + " cards"| == |sn + " cards"|;
      }
      assert sm == sn by {
        assert (sm + " cards")[..|sm|] == sm;
        assert (sn + " cards")[..|sn|] == sn;
      }
      NatToStringInjective(m, n);
    } else if m == 1 && n != 1 {
      LabelOfOtherCountIsNotSingular(n);
    } else if n == 1 && m != 1 {
      LabelOfOtherCountIsNotSingular(m);
    }
  }

  lemma LabelOfOtherCountIsNotSingular(n: nat)
    requires n != 1
    ensures CountLabel(n) != "1 card"
  {}

  // ---------------------------------------------------------------------------
  // Column sorting

  datatype Direction = Ascending | Descending

  /** The column and direction of the last sort; nothing before the first one. */
  datatype SortState<Column> = SortState(column: Option<Column>, direction: Option<Direction>)

  /** The direction a click on `column` sorts in: the same column flips its direction,
      any other column (or the first click) sorts ascending. */
  function NextDirection<Column(==)>(state: SortState<Column>, column: Column): (d: Direction)
    ensures state.column == Some(column) && state.direction == Some(Ascending) ==> d == Descending
    ensures state.column == Some(column) && state.direction == Some(Descending) ==> d == Ascending
    ensures state.column != Some(column) || state.direction.None? ==> d == Ascending
  {
    if state.column == Some(column) && state.direction == Some(Ascending) then Descending
    else if state.column == Some(column) && state.direction == Some(Descending) then Ascending
    else Ascending
  }

  /** The state after a click on `column`. */
  function Click<Column(==)>(state: SortState<Column>, column: Column): (s: SortState<Column>)
    ensures s.column == Some(column) && s.direction.Some?
  {
    SortState(Some(column), Some(NextDirection(state, column)))
  }

  /** `n` clicks on the same column. */
  function Clicks<Column(==)>(state: SortState<Column>, column: Column, n: nat): SortState<Column> {
    if n == 0 then state else Click(Clicks(state, column, n - 1), column)
  }

  /** Two clicks on the sorted column bring its direction back. */
  lemma ClickTwiceRestores<Column>(state: SortState<Column>, column: Column)
    requires state.column == Some(column) && state.direction.Some?
    ensures Click(Click(state, column), column) == state
  {
    var once := Click(state, column);
    assert once.column == Some(column);
    if state.direction.value == Ascending {
      assert once.direction == Some(Descending);
    } else {
      assert once.direction == Some(Ascending);
    }
  }

  /** Clicking a column over and over, starting from another column, alternates
      ascending, descending, ascending, ... */
  lemma {:induction false} ClicksAlternate<Column>(state: SortState<Column>, column: Column, n: nat)
    requires state.column != Some(column) && n > 0
    ensures Clicks(state, column, n).direction == Some(if n % 2 == 1 then Ascending else Descending)
  {
    if n > 1 {
      ClicksAlternate(state, column, n - 1);
    }
  }

  /** The `SortMemberPath` of the clicked column. */
  datatype SortMember =
    | ById | ByName | ByCategory | ByAmount | ByMarketPrice | ByTotalValue
    | ByLatestSalePrice | ByLatestSaleDate | ByLastUpdated | ByOther

  /** A sort key: a number (integers, money, times) or a text. */
  datatype SortKey = Number(n: real) | Word(s: string)

  /** `decimal.MaxValue` and `decimal.MinValue`. */
  const DecimalMax: real := 79228162514264337593543950335.0
  const DecimalMin: real := -79228162514264337593543950335.0

  /** `DateTime.MinValue`, in ticks. */
  const DateTimeMinTicks: Instant := 0

  /** A value a `decimal` can hold. */
  predicate IsDecimal(v: Money) {
    DecimalMin <= v <= DecimalMax
  }

  /** The key of a nullable money column: an absent value becomes the largest decimal when
      sorting ascending and the smallest when sorting descending. */
  function MoneyKey(v: Option<Money>, d: Direction): (k: real)
    ensures v.Some? ==> k == v.value
    ensures v.None? && d == Ascending ==> forall x :: IsDecimal(x) ==> x <= k
    ensures v.None? && d == Descending ==> forall x :: IsDecimal(x) ==> k <= x
  {
    match d
    case Ascending => v.GetOr(DecimalMax)
    case Descending => v.GetOr(DecimalMin)
  }

  /** The nullable money value a money column shows. */
  function MoneyOf(member: SortMember, c: Card): Option<Money>
    requires member in {ByMarketPrice, ByTotalValue, ByLatestSalePrice}
  {
    match member
    case ByMarketPrice => c.marketPrice
    case ByTotalValue => TotalValue(c)
    case ByLatestSalePrice => c.latestSalePrice
  }

  /** The direction the rows are actually ordered in: an unknown column always sorts by `Id` ascending. */
  function EffectiveDirection(member: SortMember, d: Direction): (e: Direction)
    ensures member == ByOther ==> e == Ascending
    ensures member != ByOther ==> e == d
  {
    if member == ByOther then Ascending else d
  }

  /** The key the rows are ordered by for the clicked column and direction. */
  function KeyOf(member: SortMember, d: Direction, c: Card): (k: SortKey)
    ensures k.Word? <==> member in {ByName, ByCategory}
    ensures member in {ById, ByOther} ==> k == Number(c.id as real)
    ensures member in {ByMarketPrice, ByTotalValue, ByLatestSalePrice} && MoneyOf(member, c).Some? ==>
              k == Number(MoneyOf(member, c).value)
    ensures member == ByName ==> k == Word(c.name)
    ensures member == ByCategory ==> k == Word(c.category)
    ensures member == ByAmount ==> k == Number(c.amount as real)
    ensures member == ByLastUpdated ==> k == Number(c.lastUpdated as real)
    ensures member == ByLatestSaleDate ==> k == Number(c.latestSaleDate.GetOr(DateTimeMinTicks) as real)
  {
    match member
    case ById => Number(c.id as real)
    case ByName => Word(c.name)
    case ByCategory => Word(c.category)
    case ByAmount => Number(c.amount as real)
    case ByMarketPrice => Number(MoneyKey(c.marketPrice, d))
    case ByTotalValue => Number(MoneyKey(TotalValue(c), d))
    case ByLatestSalePrice => Number(MoneyKey(c.latestSalePrice, d))
    case ByLatestSaleDate => Number(c.latestSaleDate.GetOr(DateTimeMinTicks) as real)
    case ByLastUpdated => Number(c.lastUpdated as real)
    case ByOther => Number(c.id as real)
  }

  /** Key `a` places its row strictly before key `b`'s row in direction `d` (a stable sort
      keeps rows with equal keys in their filtered order). */
  predicate SortsBefore(d: Direction, a: SortKey, b: SortKey) {
    match (a, b)
    case (Number(x), Number(y)) => if d == Ascending then x < y else x > y
    case (Word(x), Word(y)) => if d == Ascending then Less(x, y) else Less(y, x)
    case _ => false
  }

  /** After a click in direction `d` on the column sorted by `member`, row `a` is placed
      strictly before row `b`. */
  predicate RowBefore(member: SortMember, d: Direction, a: Card, b: Card)
    ensures RowBefore(member, d, a, b) ==> KeyOf(member, d, a) != KeyOf(member, d, b)
  {
    var ka := KeyOf(member, d, a);
    LessIrreflexive(if ka.Word? then ka.s else "");
    SortsBefore(EffectiveDirection(member, d), ka, KeyOf(member, d, b))
  }

  /** A column without a known sort member orders the rows by ascending `Id`, whatever
      the direction the click chose. */
  lemma OtherColumnSortsByIdAscending(d: Direction, a: Card, b: Card)
    ensures RowBefore(ByOther, d, a, b) <==> a.id < b.id
  {}

  /** Ascending, each named column orders the rows by its own field: names and categories in
      ordinal order, the numeric columns by value, and two present prices or sale dates by value. */
  lemma NamedColumnsSortByTheirField(a: Card, b: Card)
    ensures RowBefore(ById, Ascending, a, b) <==> a.id < b.id
    ensures RowBefore(ByName, Ascending, a, b) <==> Less(a.name, b.name)
    ensures RowBefore(ByCategory, Ascending, a, b) <==> Less(a.category, b.category)
    ensures RowBefore(ByAmount, Ascending, a, b) <==> a.amount < b.amount
    ensures RowBefore(ByLastUpdated, Ascending, a, b) <==> a.lastUpdated < b.lastUpdated
    ensures a.marketPrice.Some? && b.marketPrice.Some? ==>
              (RowBefore(ByMarketPrice, Ascending, a, b) <==> a.marketPrice.value < b.marketPrice.value)
    ensures a.latestSalePrice.Some? && b.latestSalePrice.Some? ==>
              (RowBefore(ByLatestSalePrice, Ascending, a, b) <==> a.latestSalePrice.value < b.latestSalePrice.value)
    ensures TotalValue(a).Some? && TotalValue(b).Some? ==>
              (RowBefore(ByTotalValue, Ascending, a, b) <==> TotalValue(a).value < TotalValue(b).value)
    ensures a.latestSaleDate.Some? && b.latestSaleDate.Some? ==>
              (RowBefore(ByLatestSaleDate, Ascending, a, b) <==> a.latestSaleDate.value < b.latestSaleDate.value)
  {}

  /** Every known column honours the clicked direction: descending reverses ascending
      (in a money column, for rows that both hold a value; a missing one is placed by
      `MissingMoneySortsLast`). */
  lemma KnownColumnHonoursDirection(member: SortMember, a: Card, b: Card)
    requires member != ByOther
    ensures member !in {ByMarketPrice, ByTotalValue, ByLatestSalePrice}
              || (MoneyOf(member, a).Some? && MoneyOf(member, b).Some?) ==>
            (RowBefore(member, Descending, a, b) <==> RowBefore(member, Ascending, b, a))
  {}

  /** In the money columns a card without a value never sorts before a card with one,
      in either direction; and a card whose value is not the decimal extreme sorts
      strictly before it. */
  lemma MissingMoneySortsLast(member: SortMember, d: Direction, missing: Card, present: Card)
    requires member in {ByMarketPrice, ByTotalValue, ByLatestSalePrice}
    requires MoneyOf(member, missing).None?
    requires MoneyOf(member, present).Some? && IsDecimal(MoneyOf(member, present).value)
    ensures !RowBefore(member, d, missing, present)
    ensures MoneyOf(member, present).value != (if d == Ascending then DecimalMax else DecimalMin) ==>
              RowBefore(member, d, present, missing)
  {}

  /** The sale-date column is the exception: a card without a sale date takes the earliest
      date in both directions, so it sorts first when ascending and last when descending. */
  lemma MissingSaleDateSortsEarliest(d: Direction, missing: Card, present: Card)
    requires missing.latestSaleDate.None?
    requires present.latestSaleDate.Some? && present.latestSaleDate.value >= DateTimeMinTicks
    ensures d == Ascending ==> !RowBefore(ByLatestSaleDate, d, present, missing)
    ensures d == Descending ==> !RowBefore(ByLatestSaleDate, d, missing, present)
  {}

  // ---------------------------------------------------------------------------
  // The window's copy of the collection

  /** The local update after a successful add: the card replaces the first entry with the
      requested `Id`, or is appended. */
  function LocalUpsert(allCards: seq<Card>, cardId: int, card: Card): (r: seq<Card>)
    ensures Store.FindIndex(allCards, cardId) >= 0 ==>
              |r| == |allCards| && r[Store.FindIndex(allCards, cardId)] == card
              && forall i :: 0 <= i < |allCards| && i != Store.FindIndex(allCards, cardId) ==> r[i] == allCards[i]
    ensures Store.FindIndex(allCards, cardId) == -1 ==> r == allCards + [card]
  {
    Store.ReplaceOrAppend(allCards, cardId, card)
  }

  /** When the window's list matched the store before an add, it matches the store after it. */
  lemma LocalListTracksStore(f: Store.FileState, cardId: int, category: Option<string>, fetched: Scraper.Listing)
    ensures var reply := Service.AddCard(f, cardId, category, Some(fetched));
            LocalUpsert(Store.Load(f), cardId, reply.card.value) == Store.Load(reply.store)
  {}
}
